=== FILE: README.md ===
# German capital-gains tax engine — Dafny model

A model of the tax engine in `calculate.py` of german_tax_calculator. The program
works through a year of securities-ledger rows. It keeps a FIFO queue of open lots per ticker. Each
sale is matched against the oldest lots and yields a currency-adjusted realized gain. From the
per-ticker start- and end-of-year values it computes the Vorabpauschale (a deemed annual
distribution for funds). It then scales positive gains by the fund's partial exemption
(Teilfreistellung), and combines everything with the allowance (Freibetrag), the flat rate
(Pauschalsteuer) and the solidarity surcharge (Solidaritätszuschlag).

The source cannot run as written: several names are unbound or undefined, and one `for` has no
body. The model therefore lifts each formula into a pure function and makes the missing pieces
explicit inputs:
- the row's ticker;
- the ledger lookup behind `get_transaction_deque_by_ticker`, taken to be the same
  lookup-with-empty-default as line 149;
- a per-lot dividend sequence;
- the withholding-tax credit `Q` and the Vorabpauschale return credit `R`.

Decimal arithmetic is modelled as exact `real` arithmetic. In-place mutation becomes returned
values: `calculate_pnl` returns the reduced `from` record together with the gain.

Modules:
- `Errors`: the failure kinds that stand in for Python's exceptions.
- `Config`: the classification table and the yearly constants.
- `Transactions`: the record and its per-share home value.
- `Pnl`: `calculate_pnl`.
- `Ledger`: the FIFO queue — buy, sale, shares.
- `YearPass`: the row loop over all tickers.
- `Valuation`: `calculate_current_total_value_foreach_ticker`.
- `Vorabpauschale`: the year-end block.
- `Tax`: exemption and the final formula.

Behaviours of the code that a reader might not expect, all modelled as written:
- **Valuation.** A ticker's value adds up the per-share value of each open lot and never
  multiplies by the lot's share count.
- **Pence quotes.** The code divides both the price and the rate by 100. A pence quote of 1000
  at rate 1 is therefore worth 0.1, a hundredth of a major-currency quote of 10 at rate 1
  (`Transactions.PenceExample`).
- **Month weight.** A lot bought in month M is weighted `(M − 1)/12`, so a January lot
  contributes nothing.
- **Oversell.** A sale larger than the position empties the queue and silently drops the
  excess; no error is raised.
- **Partial lot.** The partial-lot gain is computed as `calculate_pnl(front, sale)` (line 176),
  the reverse of the full-lot call `calculate_pnl(sale, lot)` (line 164). When the lot and the sale share a currency, its sign is therefore flipped;
  `Ledger.PartialStepOrientation` states this.
- **No floors.** Neither the tax base nor the tax is floored at zero.
- **Withholding-tax credit.** `Q` is subtracted after the flat rate and before the surcharge.
- **Failures abort.** A zero share total at the per-share division, an unknown ticker and an
  unknown year each raise in Python and end the run. The model returns them as `Failure` values.

## Model

| member | source | states |
|---|---|---|
| Config.TeilfreistellungOf | calculate.py:86 | an unknown ticker fails; a stock gets 1; an ETF gets exactly the fraction configured for it in the classification table; every configured fraction is 0.7 or 1, so within (0, 1] |
| Config.BasiszinsFor | calculate.py:68-71 | the base rate exists exactly for 2020 (0.88) and 2021 (−0.45); other years fail with the year as the error |
| Transactions.MakeTransaction | calculate.py:79-86 | construction fails exactly for unclassified tickers; otherwise the fields are copied, the record carries the ticker's own classification fraction (0.7 or 1), and positive inputs give a well-formed record |
| Transactions.PerShareValue | calculate.py:90-95 | a pence quote is worth price/(rate·10000); otherwise value·rate = price; positive price and rate give a positive value |
| Transactions.PenceScale | calculate.py:90-95 | the pence value is exactly 1/10000 of the major-currency value for the same figures |
| Transactions.PenceExample | calculate.py:106-109 | pence 1000 at rate 1 is worth 0.1, while major-currency 10 at rate 1 is worth 10 |
| Pnl.CalculatePnl | calculate.py:89-98 | `from` loses exactly `t.shares` shares and nothing else changes; the gain is t.shares × (price/rate of f − price/rate of t), divided by 10000 when f is quoted in pence |
| Pnl.PnlSameCurrency | calculate.py:89-98 | with equal currencies the gain is t.shares × (home value of f − home value of t) |
| Pnl.PnlIgnoresToCurrencyAndFromShares | calculate.py:90-97 | the gain depends neither on t's currency nor on f's share count |
| Pnl.PnlAntisymmetric | calculate.py:89-98 | for two records with equal currencies, swapping them while keeping the same share count on the `t` side negates the gain |
| Pnl.PnlSign | calculate.py:97 | for equal currencies and positive t.shares, the gain is positive (zero) exactly when f is worth more than (the same as) t |
| Ledger.Buy | calculate.py:151-153 | a buy appends at the back; existing lots and their order are unchanged; the share total grows by the lot's shares |
| Ledger.Dispose | calculate.py:161-176 | a sale never lengthens the queue |
| Ledger.DisposeLoop | calculate.py:161-176 | the while loop plus the partial step compute the same queue, gains and sale remainder as `Dispose` |
| Ledger.DisposeShape | calculate.py:161-176 | the popped prefix holds at most the sale; only the next lot loses the remainder, which is smaller than it; all later lots are untouched and in order |
| Ledger.DisposePnls | calculate.py:161-176 | one gain per popped lot, as (sale − lot), then one partial gain, as (lot − sale), only when a lot is left and the remainder is positive |
| Ledger.DisposeConservesShares | calculate.py:161-175 | selling q ≤ S shares leaves exactly S − q, and every remaining lot stays well-formed |
| Ledger.DisposeOversell | calculate.py:161-176 | selling more than the queue holds empties it, records one gain per lot, and leaves the excess on the sale with no error |
| Ledger.DisposeKeepsValid | calculate.py:161-176 | after any sale the queue holds only well-formed lots; it is empty after an oversell |
| Ledger.DisposeExactMatch | calculate.py:161-175 | a sale equal to the first k lots pops exactly those k and records no partial gain |
| Ledger.PartialStepOrientation | calculate.py:164-176 | for a lot and a sale with equal currencies, the partial-lot gain is the negation of the full-lot orientation, rem × (lot − sale) |
| Ledger.FifoExample | calculate.py:151-176 | buy 10, buy 5, sell 12 leaves one lot of 3 shares and records two gains |
| YearPass.Step | calculate.py:149-185 | a row changes only its own ticker's queue and adds that key. A buy appends and adds its shares. A sale replaces the queue by the FIFO result of `Dispose` and records exactly `Dispose`'s gains, in order, tagged with the sale's fraction; within the position it removes its shares, an oversell empties the queue. Other actions leave the queue as it was. Well-formedness is kept |
| YearPass.ProcessYear | calculate.py:146-185 | the year's keys are the carried-in keys plus the row tickers; tickers without rows are untouched; well-formedness is kept |
| YearPass.ProcessYearPositions | calculate.py:148-185 | without an oversell, each year-end position is the carried-in position plus bought minus sold |
| YearPass.EmptyYear | calculate.py:146-185 | an empty year returns the carried-in book and no gains |
| YearPass.ProcessYearAppend | calculate.py:148-185 | one more row is one more `Step` on the book the earlier rows left, and its gains are appended after theirs |
| Valuation.TotalValue | calculate.py:104-110 | the inner loop computes the sum of per-lot per-share values |
| Valuation.ValueForeachTicker | calculate.py:101-111 | the result has exactly the book's tickers as keys; an empty queue is valued 0 |
| Valuation.QueueValueIgnoresShares | calculate.py:105-109 | queues that differ only in share counts have the same value |
| Valuation.QueueValuePositive | calculate.py:104-110 | a queue of well-formed lots has a non-negative value, positive unless empty |
| Valuation.BuyAddsValue | calculate.py:105-109 | a buy adds the new lot's per-share value, whatever its share count |
| Valuation.SaleValue | calculate.py:101-111 | after a sale the queue is worth what its unpopped lots were worth before |
| Vorabpauschale.ZipSoyEoy | calculate.py:195-200 | the keys are the end-of-year tickers; a missing start value becomes 0 |
| Vorabpauschale.Basisertrag | calculate.py:210-211 | positive exactly when min(soy·basiszins·0.7, eoy − soy)·(month − 1)/12 exceeds the dividend, and then equal to that excess; otherwise 0. For a dividend ≥ 0 and month ≥ 1, exactly 0 with no gain, with a non-positive base rate and start value ≥ 0, with a start value of 0 and end value ≥ 0, or for a January lot |
| Vorabpauschale.BasisertragExample | calculate.py:210-211 | 100 → 110 at base rate 0.88, July lot: 5, or 3 with a dividend of 2, or 0 with a dividend of 6 |
| Vorabpauschale.BasisertragZeroNeedsConditions | calculate.py:210-211 | the side conditions of the zero cases are needed: a January lot with dividend −1 has base 1, and start value −100, end value 10 at base rate −0.45, July lot, has base 15.75 |
| Vorabpauschale.SumBasisertragNonNegative | calculate.py:207-212 | the per-ticker sum of lot bases is never negative |
| Vorabpauschale.SumBasisertragZero | calculate.py:207-212 | for well-formed lots and dividends ≥ 0, the sum is 0 without a gain, with a non-positive base rate and start value ≥ 0, or with a start value of 0 and end value ≥ 0 |
| Vorabpauschale.PerShare | calculate.py:214 | fails exactly on a zero share total; otherwise value × shares = sum, and the value is ≥ 0 for a positive total |
| Vorabpauschale.YearlyPerShare | calculate.py:205-214 | the per-ticker loop computes `PerShare` |
| Vorabpauschale.PerShareSound | calculate.py:207-214 | for well-formed lots and dividends ≥ 0: failure exactly when there are no lots; otherwise ≥ 0, and exactly 0 in the three no-base cases of `NoBase` |
| Vorabpauschale.PerShareInYear | calculate.py:207-214 | a ticker without lots fails at the division; with lots, an unknown year fails with that year; a known year gives `PerShare` at that year's base rate |
| Vorabpauschale.VorabpauschaleForeachTicker | calculate.py:190-214 | one figure per book ticker, from the zipped start value, the end value of that ticker's queue and the year's base rate |
| Vorabpauschale.VorabpauschaleForeachTickerSound | calculate.py:190-214 | for a known year and a ticker whose dividends are all ≥ 0, a figure fails iff the ticker has no lots and is otherwise ≥ 0; a first-year ticker, one that did not rise in value, or any ticker with non-negative start value in 2021 owes 0 |
| Tax.TaxableContribution | calculate.py:222 | a loss passes through unscaled; a gain with a fraction in (0, 1] contributes a value in (0, pnl]; fraction 1 keeps it and 0.7 gives 7/10 of it |
| Tax.TotalTaxablePnl | calculate.py:221-222 | the sum, over the realized matches in ledger order, of each match's `TaxableContribution`: 0 for no matches, never negative when every match is a gain, never positive when every match is a loss |
| Tax.TotalTaxablePnlLoop | calculate.py:221-222 | the accumulating `total_pnl +=` loop over the matches computes `TotalTaxablePnl` |
| Tax.TotalTaxablePnlBounds | calculate.py:221-222 | the exempted total never exceeds the raw total, and equals it with only losses or only fraction-1 events |
| Tax.TotalTaxablePnlAppend | calculate.py:222 | another event adds exactly its contribution |
| Tax.SplitTotals | calculate.py:222 | for one ticker's events, the per-match total is fraction × gains + losses, while the raw total is gains + losses |
| Tax.PerMatchAtMostNet | calculate.py:221-222 | exempting each match never gives more than exempting the ticker's net gain |
| Tax.PerMatchVsNetExample | calculate.py:221-222 | +100 and −100 on one 0.7 ETF give −30 per match and 0 on the net |
| Tax.Tax | calculate.py:225 | without credits the tax is 26.375 % of income above 801. At or below the allowance with non-negative credits it is ≤ 0, not floored |
| Tax.TaxMonotone | calculate.py:225 | non-decreasing in taxable gains and in the Vorabpauschale |
| Tax.TaxQuellensteuer | calculate.py:224-225 | each unit of withholding credit lowers the tax by 1.055 |
| Tax.TaxReturnCredit | calculate.py:225 | the return credit lowers the tax one for one |
| Tax.TaxNotFloored | calculate.py:72-74 | with no income the tax is −211.26375 |

## Left out

- CSV reading, timestamp parsing and empty-field defaults to 0 (calculate.py:79-85, 146-148) are ingestion. Records arrive already built; only the month of the timestamp is kept, and well-formedness is the `Valid` predicate.
- The tax year taken from the file name (calculate.py:123-124), the printed report (calculate.py:227-229) and the persistence TODOs (calculate.py:126-134, 231-237) are I/O.
- Decimal precision 8 (calculate.py:118) and the binary-float values behind `Decimal(0.7)`, `Decimal(0.88)`, `Decimal(-0.45)`, `Decimal(0.25)`, `Decimal(1.055)` and `Decimal((month − 1)/12)` are not modelled. The model uses the exact decimals written in the source; rounding is not modelled.
- The Vorabpauschale return credit (calculate.py:166-178) is not modelled. That block has an empty `for` body, misspelled and undefined names, and reads the sale's share count after it was reduced. The credit is the input `R` of `Tax.Tax`.
- The withholding-tax credit is a TODO at calculate.py:224. It is the input `Q` of `Tax.Tax`.
- Dividend and Deposit rows do no work (calculate.py:180-183) beyond the lookup and write-back of their ticker's queue. The undefined `dividend` at calculate.py:210 becomes a per-lot input sequence; the statements that a base is 0 or that a figure is ≥ 0 assume its entries are ≥ 0 (a negative dividend raises the floored base above 0).
- Tax.TotalTaxablePnl applies the exemption to each realized match, not to a ticker's net gain. Lines 164, 176 and 221 suggest the source meant to scale each ticker's net: with a +100 and a −100 match on one 0.7 ETF, the net reading gives 0 and the per-match reading gives −30. Line 222 reads from an undefined `taxable_event`, so neither reading is certain. `Tax.NetTaxable` states the net reading, and `Tax.PerMatchAtMostNet` proves the per-match figure never exceeds it.
- Vorabpauschale.VorabpauschaleForeachTicker computes every ticker's figure even when one of them fails. The source raises at the first failing ticker in its loop order (calculate.py:205-214), and that ends the run. So any `Failure` in the map stands for the whole year aborting, not for that ticker being skipped. A ticker sold out during the year keeps its key through line 185 and therefore always triggers this failure.
- The per-ticker loop around the tax formula (calculate.py:219-225) sums undefined totals. The formula is modelled once, as a function of G, V, Q and R. Realized gains are emitted as a list of `TaxableEvent`s rather than accumulated into `ticker_to_total_pnl`, whose `+=` on a missing key would raise.
- The cross-year carried Vorabpauschale-per-share map is never defined in the source. The book carried in and out is the `Book` argument and result of `YearPass.ProcessYear`.
- Ledger.Dispose: its own contract says only that the queue does not grow. The full behaviour is stated by `Ledger.DisposeShape`, `Ledger.DisposePnls`, `Ledger.DisposeConservesShares` and `Ledger.DisposeOversell`.

=== FILE: config.dfy ===
/** The process-wide configuration of calculate.py: the ticker classification table
    and the yearly tax constants. Decimal values built from binary floats
    (`Decimal(0.7)`, `Decimal(0.88)`, ...) are modelled as the exact decimals written
    in the source. */
module Config {
  import opened Errors

  /** A security is either a stock or an ETF with a partial-exemption fraction. */
  datatype Traits = Stock | Etf(teilfreistellung: real)

  /** `ticker_to_traits`. */
  const TickerToTraits: map<string, Traits> := map[
    "BTCE" := Etf(1.0),
    "EQQQ" := Etf(0.7),
    "EUNL" := Etf(0.7),
    "GE"   := Stock,
    "IS3N" := Etf(0.7),
    "INRG" := Etf(0.7),
    "IUSN" := Etf(0.7),
    "PHGP" := Etf(1.0),
    "SGLN" := Etf(1.0),
    "VUAA" := Etf(0.7),
    "VUSA" := Etf(0.7),
    "VWRA" := Etf(0.7),
    "VWRL" := Etf(0.7)
  ]

  /** Base rate per tax year, keyed by the year as a string. */
  const BasiszinsTable: map<string, real> := map["2020" := 0.88, "2021" := -0.45]

  const Freibetrag: real := 801.0
  const Pauschalsteuer: real := 0.25
  const Solidaritaetszuschlag: real := 1.055

  /** The partial-exemption fraction a transaction of `ticker` carries: the configured
      fraction for an ETF, 1 for a stock, and a lookup failure for an unknown ticker. */
  function TeilfreistellungOf(ticker: string): (r: Result<real>)
    ensures r.Success? <==> ticker in TickerToTraits
    ensures r.Success? ==> r.value == 0.7 || r.value == 1.0
    ensures r.Success? ==> 0.0 < r.value <= 1.0
    ensures ticker in TickerToTraits && TickerToTraits[ticker].Etf? ==>
      r == Success(TickerToTraits[ticker].teilfreistellung)
    ensures ticker in TickerToTraits && TickerToTraits[ticker].Stock? ==> r == Success(1.0)
    ensures ticker == "GE" ==> r == Success(1.0)
    ensures ticker == "VWRL" ==> r == Success(0.7)
  {
    if ticker !in TickerToTraits then Failure(UnknownTicker(ticker))
    else
      match TickerToTraits[ticker]
      case Etf(f) => Success(f)
      case Stock => Success(1.0)
  }

  /** `basiszins[year]`. */
  function BasiszinsFor(year: string): (r: Result<real>)
    ensures r.Success? <==> year in BasiszinsTable
    ensures r.Failure? ==> r.error == UnknownYear(year)
    ensures year == "2021" ==> r == Success(-0.45)
    ensures year == "2020" ==> r == Success(0.88)
  {
    if year in BasiszinsTable then Success(BasiszinsTable[year]) else Failure(UnknownYear(year))
  }
}

=== FILE: errors.dfy ===
/** Failure kinds of the tax engine.

    The original program has no error handling of its own: every failure is a Python
    exception raised by a dictionary lookup or a Decimal division. The model makes each
    of those exceptions an explicit, inspectable value. */
module Errors {

  datatype Error =
    /** `ticker_to_traits[ticker]` raised KeyError: the ticker is not classified. */
    | UnknownTicker(ticker: string)
    /** `basiszins[year]` raised KeyError: no base rate is configured for the year. */
    | UnknownYear(year: string)
    /** `vorabpauschalen / shares` divided by a zero share total. */
    | NoSharesHeld

  datatype Result<+T> = Success(value: T) | Failure(error: Error)
}

=== FILE: ledger.dfy ===
/** The per-ticker FIFO queue of open lots kept by `main`: a buy appends a lot, a sale
    consumes lots from the front. */
module Ledger {
  import opened Transactions
  import opened Pnl

  /** One ticker's open lots, oldest first. */
  type Queue = seq<Transaction>

  /** The open lots of every ticker. */
  type Book = map<string, Queue>

  predicate RatesNonZero(q: Queue) {
    forall i :: 0 <= i < |q| ==> q[i].rate != 0.0
  }

  predicate ValidQueue(q: Queue) {
    forall i :: 0 <= i < |q| ==> Valid(q[i])
  }

  predicate ValidBook(b: Book) {
    forall t :: t in b ==> ValidQueue(b[t])
  }

  /** The number of shares held in `q`. */
  function TotalShares(q: Queue): real {
    if |q| == 0 then 0.0 else q[0].shares + TotalShares(q[1..])
  }

  lemma {:induction false} TotalSharesAppend(q: Queue, tx: Transaction)
    ensures TotalShares(q + [tx]) == TotalShares(q) + tx.shares
  {
    if |q| > 0 {
      assert (q + [tx])[1..] == q[1..] + [tx];
      TotalSharesAppend(q[1..], tx);
    }
  }

  lemma {:induction false} TotalSharesSplit(q: Queue, k: nat)
    requires k <= |q|
    ensures TotalShares(q) == TotalShares(q[..k]) + TotalShares(q[k..])
  {
    if k > 0 {
      assert q[..k][1..] == q[1..][..k - 1];
      assert q[k..] == q[1..][k - 1..];
      TotalSharesSplit(q[1..], k - 1);
    }
  }

  /** A queue of well-formed lots holds a positive number of shares unless it is empty. */
  lemma {:induction false} TotalSharesPositive(q: Queue)
    requires ValidQueue(q)
    ensures TotalShares(q) >= 0.0
    ensures TotalShares(q) == 0.0 <==> |q| == 0
  {
    if |q| > 0 {
      TotalSharesPositive(q[1..]);
    }
  }

  /** `dq.append(tx)`: the new lot goes to the back; every existing lot keeps its place. */
  function Buy(q: Queue, tx: Transaction): (r: Queue)
    ensures |r| == |q| + 1
    ensures r[..|q|] == q && r[|q|] == tx
    ensures TotalShares(r) == TotalShares(q) + tx.shares
  {
    TotalSharesAppend(q, tx);
    q + [tx]
  }

  /** What a sale leaves behind: the remaining queue, the gains recorded in order, and
      the share count the sale record holds afterwards (the loop reduces it by every
      fully consumed lot, the partial step does not). */
  datatype Disposal = Disposal(queue: Queue, pnls: seq<real>, saleSharesLeft: real)

  /** The sale block of `main`. While the sale's remaining share count is at least the
      front lot's, the front lot is popped and `calculate_pnl(sale, lot)` is recorded,
      which lowers the sale's count by the lot's. Then, if a lot is left and the sale
      still has shares, `calculate_pnl(front, sale)` is recorded, which lowers the front
      lot's count by the sale's. A sale larger than the queue empties it and the excess
      is dropped without an error. */
  function Dispose(q: Queue, sale: Transaction): (r: Disposal)
    requires RatesNonZero(q) && sale.rate != 0.0
    ensures |r.queue| <= |q|
    ensures RatesNonZero(r.queue)
    decreases |q|
  {
    if |q| > 0 && sale.shares >= q[0].shares then
      var step := CalculatePnl(sale, q[0]);
      var rest := Dispose(q[1..], step.from);
      Disposal(rest.queue, [step.pnl] + rest.pnls, rest.saleSharesLeft)
    else if |q| > 0 && sale.shares > 0.0 then
      var step := CalculatePnl(q[0], sale);
      Disposal([step.from] + q[1..], [step.pnl], sale.shares)
    else
      Disposal(q, [], sale.shares)
  }

  /** `d` with `pnls` recorded before its own gains. */
  function PrependPnls(pnls: seq<real>, d: Disposal): (r: Disposal)
    ensures r.queue == d.queue && r.saleSharesLeft == d.saleSharesLeft
    ensures |r.pnls| == |pnls| + |d.pnls| && r.pnls[..|pnls|] == pnls
  {
    Disposal(d.queue, pnls + d.pnls, d.saleSharesLeft)
  }

  /** The sale block as the loop the source writes, proved equal to `Dispose`: `dq` is
      the ticker's queue afterwards, `pnls` the gains in the order they were added to
      the ticker's total, `left` the sale record's share count afterwards. */
  method DisposeLoop(q: Queue, sale: Transaction) returns (dq: Queue, pnls: seq<real>, left: real)
    requires RatesNonZero(q) && sale.rate != 0.0
    ensures Disposal(dq, pnls, left) == Dispose(q, sale)
  {
    dq := q;
    var tx := sale;
    pnls := [];
    while |dq| > 0 && tx.shares >= dq[0].shares
      invariant RatesNonZero(dq) && tx.rate == sale.rate
      invariant |dq| <= |q|
      invariant Dispose(q, sale) == PrependPnls(pnls, Dispose(dq, tx))
      decreases |dq|
    {
      var step := CalculatePnl(tx, dq[0]);
      DisposeLoopStep(dq, tx, pnls);
      dq := dq[1..];
      tx := step.from;
      pnls := pnls + [step.pnl];
    }
    if |dq| > 0 && tx.shares > 0.0 {
      var step := CalculatePnl(dq[0], tx);
      dq := [step.from] + dq[1..];
      pnls := pnls + [step.pnl];
    }
    left := tx.shares;
  }

  /** One pass of the sale loop: popping a fully consumed front lot moves its gain
      from the recursive disposal onto the recorded gains. */
  lemma DisposeLoopStep(q: Queue, sale: Transaction, pnls: seq<real>)
    requires RatesNonZero(q) && sale.rate != 0.0
    requires |q| > 0 && sale.shares >= q[0].shares
    ensures CalculatePnl(sale, q[0]).from.rate == sale.rate
    ensures PrependPnls(pnls, Dispose(q, sale))
         == PrependPnls(pnls + [CalculatePnl(sale, q[0]).pnl], Dispose(q[1..], CalculatePnl(sale, q[0]).from))
  {
    var step := CalculatePnl(sale, q[0]);
    var rest := Dispose(q[1..], step.from);
    assert pnls + ([step.pnl] + rest.pnls) == (pnls + [step.pnl]) + rest.pnls;
  }

  /** The complete FIFO shape of a sale. With `d` lots popped: the popped lots hold no
      more than the sale; the sale keeps the rest `rem`; if a lot is left, `rem` is
      smaller than it, only that front lot loses `rem` shares, and every later lot is
      untouched and in its old place. */
  lemma {:induction false} DisposeShape(q: Queue, sale: Transaction)
    requires RatesNonZero(q) && sale.rate != 0.0
    requires sale.shares >= 0.0
    ensures var r := Dispose(q, sale);
      var d := |q| - |r.queue|;
      var rem := r.saleSharesLeft;
      && TotalShares(q[..d]) <= sale.shares
      && rem == sale.shares - TotalShares(q[..d])
      && (|r.queue| > 0 ==>
            && rem < q[d].shares
            && r.queue[0] == q[d].(shares := q[d].shares - rem)
            && r.queue[1..] == q[d + 1..])
  {
    var r := Dispose(q, sale);
    if |q| > 0 && sale.shares >= q[0].shares {
      var step := CalculatePnl(sale, q[0]);
      DisposeShape(q[1..], step.from);
      var d := |q| - |r.queue|;
      assert q[..d][1..] == q[1..][..d - 1];
      if |r.queue| > 0 {
        assert q[1..][d - 1 + 1..] == q[d + 1..];
      }
    } else if |q| > 0 && sale.shares > 0.0 {
      assert q[..0] == [];
    } else {
      assert q[..0] == [];
    }
  }

  /** The gains a sale records, in order: for each popped lot, the lot's shares times
      (sale value − lot value) in the sale's currency; then, only if a lot is left and
      the sale still holds `rem > 0` shares, `rem` times (lot value − sale value) in the
      lot's currency — the opposite orientation. */
  lemma {:induction false} DisposePnls(q: Queue, sale: Transaction)
    requires RatesNonZero(q) && sale.rate != 0.0
    requires sale.shares >= 0.0
    ensures var r := Dispose(q, sale);
      var d := |q| - |r.queue|;
      var rem := r.saleSharesLeft;
      var partial := |r.queue| > 0 && rem > 0.0;
      && |r.pnls| == d + (if partial then 1 else 0)
      && (forall i :: 0 <= i < d ==> r.pnls[i] == CalculatePnl(sale, q[i]).pnl)
      && (partial ==> r.pnls[d] == CalculatePnl(q[d], sale.(shares := rem)).pnl)
  {
    var r := Dispose(q, sale);
    if |q| > 0 && sale.shares >= q[0].shares {
      var step := CalculatePnl(sale, q[0]);
      DisposePnls(q[1..], step.from);
      var rest := Dispose(q[1..], step.from);
      var d := |q| - |r.queue|;
      forall i | 0 <= i < d
        ensures r.pnls[i] == CalculatePnl(sale, q[i]).pnl
      {
        if i > 0 {
          assert r.pnls[i] == rest.pnls[i - 1];
          PnlIgnoresToCurrencyAndFromShares(sale, q[i], q[i].currency, step.from.shares);
        }
      }
      if |r.queue| > 0 && r.saleSharesLeft > 0.0 {
        assert step.from.(shares := r.saleSharesLeft) == sale.(shares := r.saleSharesLeft);
      }
    }
  }

  /** Selling no more than the queue holds leaves exactly the difference, and every
      remaining lot stays well-formed (in particular keeps a positive share count). */
  lemma {:induction false} DisposeConservesShares(q: Queue, sale: Transaction)
    requires ValidQueue(q) && Valid(sale)
    requires sale.shares <= TotalShares(q)
    ensures TotalShares(Dispose(q, sale).queue) == TotalShares(q) - sale.shares
    ensures ValidQueue(Dispose(q, sale).queue)
    ensures Dispose(q, sale).saleSharesLeft == 0.0 || |Dispose(q, sale).queue| > 0
  {
    var r := Dispose(q, sale);
    var d := |q| - |r.queue|;
    DisposeShape(q, sale);
    TotalSharesSplit(q, d);
    if |r.queue| > 0 {
      ReducedFrontShares(q[d..], r.queue, q[d].shares - r.queue[0].shares);
      forall i | 0 <= i < |r.queue|
        ensures Valid(r.queue[i])
      {
        if i > 0 {
          assert r.queue[i] == r.queue[1..][i - 1] == q[d + 1..][i - 1] == q[d + i];
        }
      }
    } else {
      assert q[d..] == [];
      TotalSharesPositive(q[..d]);
    }
  }

  /** Lowering only the front lot by `k` lowers the queue's total by `k`. */
  lemma ReducedFrontShares(a: Queue, c: Queue, k: real)
    requires |a| > 0 && |c| == |a|
    requires c[0].shares == a[0].shares - k
    requires c[1..] == a[1..]
    ensures TotalShares(c) == TotalShares(a) - k
  {
  }

  /** Selling more than the queue holds empties it, records one gain per lot, and leaves
      the excess on the sale record: no error is raised. */
  lemma {:induction false} DisposeOversell(q: Queue, sale: Transaction)
    requires ValidQueue(q) && Valid(sale)
    requires sale.shares > TotalShares(q)
    ensures Dispose(q, sale).queue == []
    ensures |Dispose(q, sale).pnls| == |q|
    ensures Dispose(q, sale).saleSharesLeft == sale.shares - TotalShares(q)
  {
    var r := Dispose(q, sale);
    var d := |q| - |r.queue|;
    DisposeShape(q, sale);
    DisposePnls(q, sale);
    TotalSharesSplit(q, d);
    if |r.queue| > 0 {
      TotalSharesSplit(q[d..], 1);
      assert q[d..][..1] == [q[d]];
      assert TotalShares([q[d]]) == q[d].shares;
      assert q[d..][1..] == q[d + 1..];
      TotalSharesPositive(q[d + 1..]);
      assert false;
    }
    assert q[..d] == q;
  }

  /** A sale that exactly matches the first `k` lots pops them all and records no partial
      gain: the `>=` test pops a lot of equal size and the `> 0` guard skips the rest. */
  lemma {:induction false} DisposeExactMatch(q: Queue, sale: Transaction, k: nat)
    requires ValidQueue(q) && Valid(sale)
    requires 0 < k <= |q|
    requires sale.shares == TotalShares(q[..k])
    ensures Dispose(q, sale).queue == q[k..]
    ensures |Dispose(q, sale).pnls| == k
  {
    var r := Dispose(q, sale);
    var d := |q| - |r.queue|;
    DisposeShape(q, sale);
    DisposePnls(q, sale);
    ExactMatchPops(q, k, d, sale.shares);
  }

  /** In a queue of positive lots, the prefix sums strictly increase, so the prefix that
      fits the sale without overshooting the next lot is the one whose sum is the sale. */
  lemma {:induction false} ExactMatchPops(q: Queue, k: nat, d: nat, s: real)
    requires ValidQueue(q)
    requires 0 < k <= |q| && d <= |q|
    requires s == TotalShares(q[..k])
    requires TotalShares(q[..d]) <= s
    requires d < |q| ==> s - TotalShares(q[..d]) < q[d].shares
    ensures d == k
  {
    if d < k {
      TotalSharesSplit(q[..k], d + 1);
      assert q[..k][..d + 1] == q[..d + 1];
      TotalSharesSplit(q[..d + 1], d);
      assert q[..d + 1][..d] == q[..d];
      assert q[..d + 1][d..] == [q[d]];
      assert TotalShares([q[d]]) == q[d].shares;
      assert q[..k][d + 1..] == q[d + 1..k];
      TotalSharesPositive(q[d + 1..k]);
    } else if d > k {
      TotalSharesSplit(q[..d], k);
      assert q[..d][..k] == q[..k];
      assert q[..d][k..] == q[k..d];
      TotalSharesPositive(q[k..d]);
    }
  }

  /** The partial-lot gain is the negation of what the full-lot orientation would record
      for the same shares: `calculate_pnl(front, sale)` instead of
      `calculate_pnl(sale, front)`. */
  lemma PartialStepOrientation(front: Transaction, sale: Transaction, rem: real)
    requires front.rate != 0.0 && sale.rate != 0.0
    requires front.currency == sale.currency
    ensures CalculatePnl(front, sale.(shares := rem)).pnl
         == -CalculatePnl(sale, front.(shares := rem)).pnl
    ensures CalculatePnl(front, sale.(shares := rem)).pnl
         == rem * (HomeValue(front) - HomeValue(sale))
  {
    PnlAntisymmetric(front, sale, rem);
    PnlSameCurrency(front, sale.(shares := rem));
  }

  /** Whatever the sale's size, the queue it leaves holds only well-formed lots, and it
      is empty after an oversell. */
  lemma {:induction false} DisposeKeepsValid(q: Queue, sale: Transaction)
    requires ValidQueue(q) && Valid(sale)
    ensures ValidQueue(Dispose(q, sale).queue)
    ensures sale.shares <= TotalShares(q) ==>
      TotalShares(Dispose(q, sale).queue) == TotalShares(q) - sale.shares
    ensures sale.shares > TotalShares(q) ==> Dispose(q, sale).queue == []
  {
    if sale.shares <= TotalShares(q) {
      DisposeConservesShares(q, sale);
    } else {
      DisposeOversell(q, sale);
    }
  }

  /** Buying 10 shares, then 5, then selling 12 pops the first lot and leaves 3 shares
      of the second, recording one full-lot and one partial-lot gain. */
  lemma FifoExample(first: Transaction, second: Transaction, sale: Transaction)
    requires Valid(first) && Valid(second) && Valid(sale)
    requires first.shares == 10.0 && second.shares == 5.0 && sale.shares == 12.0
    ensures Dispose(Buy(Buy([], first), second), sale).queue == [second.(shares := 3.0)]
    ensures |Dispose(Buy(Buy([], first), second), sale).pnls| == 2
    ensures Dispose(Buy(Buy([], first), second), sale).saleSharesLeft == 2.0
  {
    var q := Buy(Buy([], first), second);
    assert q == [first, second];
    assert q[1..] == [second];
  }
}

=== FILE: pnl.dfy ===
/** `calculate_pnl`: the realized gain of one (from, to) pair, and the share-count
    side effect it has on `from`. */
module Pnl {
  import opened Transactions

  /** What a call to `calculate_pnl(f, t)` leaves behind: the record `f` after its share
      count was reduced in place, and the returned gain. */
  datatype PnlOutcome = PnlOutcome(from: Transaction, pnl: real)

  /** One realized gain together with the exemption fraction of its ticker. */
  datatype TaxableEvent = TaxableEvent(pnl: real, teilfreistellung: real)

  /** `calculate_pnl(f, t)`. Only `f.currency` is inspected: the pence adjustment of
      `f` is applied to both records. */
  function CalculatePnl(f: Transaction, t: Transaction): (r: PnlOutcome)
    requires f.rate != 0.0 && t.rate != 0.0
    ensures r.from == f.(shares := f.shares - t.shares)
    ensures f.currency != Gbx ==> r.pnl == t.shares * (f.price / f.rate - t.price / t.rate)
    ensures f.currency == Gbx ==>
      r.pnl * 10000.0 == t.shares * (f.price / f.rate - t.price / t.rate)
  {
    var pence := f.currency == Gbx;
    var cf := PerShareValue(f.price, f.rate, pence);
    var ct := PerShareValue(t.price, t.rate, pence);
    PnlOutcome(f.(shares := f.shares - t.shares), t.shares * (cf - ct))
  }

  /** When both records are quoted in the same currency the gain is the `t` share count
      times the difference of the two home values. */
  lemma PnlSameCurrency(f: Transaction, t: Transaction)
    requires f.rate != 0.0 && t.rate != 0.0
    requires f.currency == t.currency
    ensures CalculatePnl(f, t).pnl == t.shares * (HomeValue(f) - HomeValue(t))
  {
  }

  /** The currency of `t`, and the share count of `f`, play no part in the gain. */
  lemma PnlIgnoresToCurrencyAndFromShares(f: Transaction, t: Transaction, c: string, n: real)
    requires f.rate != 0.0 && t.rate != 0.0
    ensures CalculatePnl(f.(shares := n), t.(currency := c)).pnl == CalculatePnl(f, t).pnl
  {
  }

  /** Swapping the roles of the two records negates the gain (same currency, same
      share count for the `t` side). The partial-lot call of the sale loop passes its
      arguments in the order opposite to the full-lot call, so its gain carries the
      opposite sign. */
  lemma PnlAntisymmetric(a: Transaction, b: Transaction, q: real)
    requires a.rate != 0.0 && b.rate != 0.0
    requires a.currency == b.currency
    ensures CalculatePnl(a, b.(shares := q)).pnl == -CalculatePnl(b, a.(shares := q)).pnl
  {
  }

  /** With a positive `t` share count, the gain is positive exactly when `f` is worth
      more per share than `t`. */
  lemma PnlSign(f: Transaction, t: Transaction)
    requires f.rate != 0.0 && t.rate != 0.0
    requires f.currency == t.currency
    requires t.shares > 0.0
    ensures CalculatePnl(f, t).pnl > 0.0 <==> HomeValue(f) > HomeValue(t)
    ensures CalculatePnl(f, t).pnl == 0.0 <==> HomeValue(f) == HomeValue(t)
  {
    PnlSameCurrency(f, t);
  }
}

=== FILE: tax.dfy ===
/** The tax aggregation at the end of `main`: partial exemption of realized gains and
    the final tax formula. */
module Tax {
  import opened Pnl
  import Config

  /** One realized gain as it enters the taxable total: a gain is scaled by the
      exemption fraction, a loss (or zero) passes through unscaled. */
  function TaxableContribution(e: TaxableEvent): (c: real)
    ensures e.pnl <= 0.0 ==> c == e.pnl
    ensures e.pnl > 0.0 && 0.0 < e.teilfreistellung <= 1.0 ==> 0.0 < c <= e.pnl
    ensures e.pnl > 0.0 && e.teilfreistellung == 1.0 ==> c == e.pnl
    ensures e.pnl > 0.0 && e.teilfreistellung == 0.7 ==> c * 10.0 == e.pnl * 7.0
  {
    if e.pnl > 0.0 then e.pnl * e.teilfreistellung else e.pnl
  }

  predicate FractionsValid(events: seq<TaxableEvent>) {
    forall i :: 0 <= i < |events| ==> 0.0 < events[i].teilfreistellung <= 1.0
  }

  /** Every realized match is a gain (or zero) with a non-negative fraction. */
  predicate OnlyGains(events: seq<TaxableEvent>) {
    forall i :: 0 <= i < |events| ==> events[i].pnl >= 0.0 && events[i].teilfreistellung >= 0.0
  }

  /** Every realized match is a loss (or zero). */
  predicate OnlyLosses(events: seq<TaxableEvent>) {
    forall i :: 0 <= i < |events| ==> events[i].pnl <= 0.0
  }

  /** The sum of the taxable contributions of `events`, first to last. */
  function SumContributions(events: seq<TaxableEvent>): real {
    if |events| == 0 then 0.0 else TaxableContribution(events[0]) + SumContributions(events[1..])
  }

  lemma {:induction false} SumContributionsSigns(events: seq<TaxableEvent>)
    ensures OnlyGains(events) ==> SumContributions(events) >= 0.0
    ensures OnlyLosses(events) ==> SumContributions(events) <= 0.0
  {
    if |events| > 0 {
      SumContributionsSigns(events[1..]);
    }
  }

  /** The taxable total of a list of realized gains, summed in ledger order. */
  function TotalTaxablePnl(events: seq<TaxableEvent>): (r: real)
    ensures |events| == 0 ==> r == 0.0
    ensures OnlyGains(events) ==> r >= 0.0
    ensures OnlyLosses(events) ==> r <= 0.0
  {
    SumContributionsSigns(events);
    SumContributions(events)
  }

  /** `total_pnl += …` over the realized gains in ledger order. */
  method TotalTaxablePnlLoop(events: seq<TaxableEvent>) returns (total: real)
    ensures total == TotalTaxablePnl(events)
  {
    total := 0.0;
    var i := 0;
    while i < |events|
      invariant 0 <= i <= |events|
      invariant total == TotalTaxablePnl(events[..i])
    {
      assert events[..i + 1] == events[..i] + [events[i]];
      TotalTaxablePnlAppend(events[..i], events[i]);
      total := total + TaxableContribution(events[i]);
      i := i + 1;
    }
    assert events[..|events|] == events;
  }

  /** The unexempted total of a list of realized gains. */
  function RawPnl(events: seq<TaxableEvent>): real {
    if |events| == 0 then 0.0 else events[0].pnl + RawPnl(events[1..])
  }

  /** The exemption never raises the total, and it leaves the total alone when there are
      only losses or only fraction-1 securities: losses are never scaled down. */
  lemma {:induction false} TotalTaxablePnlBounds(events: seq<TaxableEvent>)
    requires FractionsValid(events)
    ensures TotalTaxablePnl(events) <= RawPnl(events)
    ensures OnlyLosses(events) ==> TotalTaxablePnl(events) == RawPnl(events)
    ensures (forall i :: 0 <= i < |events| ==> events[i].teilfreistellung == 1.0) ==>
      TotalTaxablePnl(events) == RawPnl(events)
  {
    if |events| > 0 {
      TotalTaxablePnlBounds(events[1..]);
    }
  }

  /** Adding a realized gain to the list adds its taxable contribution. */
  lemma {:induction false} TotalTaxablePnlAppend(events: seq<TaxableEvent>, e: TaxableEvent)
    ensures TotalTaxablePnl(events + [e]) == TotalTaxablePnl(events) + TaxableContribution(e)
  {
    if |events| > 0 {
      assert (events + [e])[1..] == events[1..] + [e];
      TotalTaxablePnlAppend(events[1..], e);
    } else {
      assert events + [e] == [e] && [e][1..] == [];
    }
  }

  /** The sum of the positive gains, unscaled. */
  function GainPart(events: seq<TaxableEvent>): real {
    if |events| == 0 then 0.0
    else (if events[0].pnl > 0.0 then events[0].pnl else 0.0) + GainPart(events[1..])
  }

  /** The sum of the losses (and zero gains). */
  function LossPart(events: seq<TaxableEvent>): real {
    if |events| == 0 then 0.0
    else (if events[0].pnl > 0.0 then 0.0 else events[0].pnl) + LossPart(events[1..])
  }

  /** The sum of the positive gains, each scaled by its own exemption fraction. */
  function ExemptGainPart(events: seq<TaxableEvent>): real {
    if |events| == 0 then 0.0
    else (if events[0].pnl > 0.0 then TaxableContribution(events[0]) else 0.0)
         + ExemptGainPart(events[1..])
  }

  /** The per-match total is the exempted gains plus the unscaled losses. */
  lemma {:induction false} SplitContributions(events: seq<TaxableEvent>)
    ensures TotalTaxablePnl(events) == ExemptGainPart(events) + LossPart(events)
    ensures RawPnl(events) == GainPart(events) + LossPart(events)
    ensures GainPart(events) >= 0.0 && LossPart(events) <= 0.0
  {
    if |events| > 0 {
      SplitContributions(events[1..]);
    }
  }

  /** With one fraction `f` throughout, the exempted gains are `f` times the gains. */
  lemma {:induction false} ExemptGainUniform(events: seq<TaxableEvent>, f: real)
    requires forall i :: 0 <= i < |events| ==> events[i].teilfreistellung == f
    ensures ExemptGainPart(events) == f * GainPart(events)
  {
    if |events| == 0 {
      assert f * GainPart(events) == f * 0.0;
    } else {
      var e, rest := events[0], events[1..];
      ExemptGainUniform(rest, f);
      var g := if e.pnl > 0.0 then e.pnl else 0.0;
      assert GainPart(events) == g + GainPart(rest);
      if e.pnl > 0.0 {
        ContributionOfGain(e, f);
      }
      assert ExemptGainPart(events) == f * g + ExemptGainPart(rest);
      Distribute(f, g, GainPart(rest));
    }
  }

  lemma ContributionOfGain(e: TaxableEvent, f: real)
    requires e.pnl > 0.0 && e.teilfreistellung == f
    ensures TaxableContribution(e) == f * e.pnl
  {
  }

  /** For events of one ticker (one fraction `f`), the per-match total scales only the
      gains, while the raw total nets gains and losses. */
  lemma {:induction false} SplitTotals(events: seq<TaxableEvent>, f: real)
    requires forall i :: 0 <= i < |events| ==> events[i].teilfreistellung == f
    ensures TotalTaxablePnl(events) == f * GainPart(events) + LossPart(events)
    ensures RawPnl(events) == GainPart(events) + LossPart(events)
    ensures GainPart(events) >= 0.0 && LossPart(events) <= 0.0
  {
    SplitContributions(events);
    ExemptGainUniform(events, f);
  }

  /** The taxable figure of one ticker when the exemption is applied to its net gain, the
      other possible reading of the per-ticker loop. */
  function NetTaxable(events: seq<TaxableEvent>, f: real): real {
    TaxableContribution(TaxableEvent(RawPnl(events), f))
  }

  /** Exempting each match separately never gives more than exempting the ticker's net:
      a loss offsets a gain at full weight per match, but only at weight `f` in the net. */
  lemma {:induction false} PerMatchAtMostNet(events: seq<TaxableEvent>, f: real)
    requires 0.0 < f <= 1.0
    requires forall i :: 0 <= i < |events| ==> events[i].teilfreistellung == f
    ensures TotalTaxablePnl(events) <= NetTaxable(events, f)
  {
    SplitTotals(events, f);
    NetTaxableForm(events, f);
    NetBound(f, GainPart(events), LossPart(events), TotalTaxablePnl(events), RawPnl(events),
             NetTaxable(events, f));
  }

  lemma NetTaxableForm(events: seq<TaxableEvent>, f: real)
    ensures NetTaxable(events, f) == if RawPnl(events) > 0.0 then RawPnl(events) * f else RawPnl(events)
  {
  }

  lemma NetBound(f: real, g: real, l: real, total: real, net: real, nt: real)
    requires 0.0 < f <= 1.0 && g >= 0.0 && l <= 0.0
    requires total == f * g + l && net == g + l
    requires nt == if net > 0.0 then net * f else net
    ensures total <= nt
  {
    SplitBound(f, g, l);
  }

  /** Scaling the gains and not the losses stays below scaling (or not) their sum. */
  lemma SplitBound(f: real, g: real, l: real)
    requires 0.0 < f <= 1.0 && g >= 0.0 && l <= 0.0
    ensures f * g + l <= (if g + l > 0.0 then (g + l) * f else g + l)
  {
    if g + l > 0.0 {
      ScaledLossAtLeastLoss(f, l);
      Distribute(f, g, l);
    } else {
      ScaledGainAtMostGain(f, g);
    }
  }

  lemma ScaledGainAtMostGain(f: real, g: real)
    requires 0.0 < f <= 1.0 && g >= 0.0
    ensures f * g <= g
  {
    assert (1.0 - f) * g >= 0.0;
  }

  lemma ScaledLossAtLeastLoss(f: real, l: real)
    requires 0.0 < f <= 1.0 && l <= 0.0
    ensures f * l >= l
  {
    assert (1.0 - f) * l <= 0.0;
  }

  lemma Distribute(f: real, g: real, l: real)
    ensures (g + l) * f == f * g + f * l
  {
  }

  /** A gain of 100 and a loss of 100 on one 0.7 ETF: per match the total is −30, on the
      net it is 0. */
  lemma PerMatchVsNetExample()
    ensures TotalTaxablePnl([TaxableEvent(100.0, 0.7), TaxableEvent(-100.0, 0.7)]) == -30.0
    ensures NetTaxable([TaxableEvent(100.0, 0.7), TaxableEvent(-100.0, 0.7)], 0.7) == 0.0
  {
    var es := [TaxableEvent(100.0, 0.7), TaxableEvent(-100.0, 0.7)];
    assert es[1..] == [TaxableEvent(-100.0, 0.7)];
    assert es[1..][1..] == [];
  }

  /** `((G + V - freibetrag) * pauschalsteuer - Q) * solidaritaetszuschlag - R`: taxable
      gains `G`, this year's Vorabpauschale `V`, withholding tax credit `Q`, and
      Vorabpauschale return credit `R`. There is no floor at zero. */
  function Tax(g: real, v: real, q: real, r: real): (tax: real)
    ensures q == 0.0 && r == 0.0 ==> tax == (g + v - 801.0) * 0.26375
    ensures g + v <= 801.0 && q >= 0.0 && r >= 0.0 ==> tax <= 0.0
    ensures g + v == 801.0 ==> tax == -(q * 1.055) - r
  {
    ((g + v - Config.Freibetrag) * Config.Pauschalsteuer - q) * Config.Solidaritaetszuschlag - r
  }

  /** More gains or more Vorabpauschale never lower the tax. */
  lemma TaxMonotone(g1: real, g2: real, v1: real, v2: real, q: real, r: real)
    requires g1 <= g2 && v1 <= v2
    ensures Tax(g1, v1, q, r) <= Tax(g2, v2, q, r)
  {
  }

  /** Each unit of withholding tax lowers the tax by the surcharge multiplier. */
  lemma TaxQuellensteuer(g: real, v: real, q: real, d: real, r: real)
    ensures Tax(g, v, q + d, r) == Tax(g, v, q, r) - d * 1.055
    ensures d > 0.0 ==> Tax(g, v, q + d, r) < Tax(g, v, q, r)
  {
  }

  /** The Vorabpauschale return credit lowers the tax one for one. */
  lemma TaxReturnCredit(g: real, v: real, q: real, r: real, d: real)
    ensures Tax(g, v, q, r + d) == Tax(g, v, q, r) - d
  {
  }

  /** Income below the allowance yields a negative tax: the formula is not floored. */
  lemma TaxNotFloored()
    ensures Tax(0.0, 0.0, 0.0, 0.0) == -211.26375
  {
  }
}

=== FILE: transaction.dfy ===
/** One ledger row turned into a transaction record, and the per-share home-currency
    value that every later computation is built on. */
module Transactions {
  import opened Errors
  import Config

  /** The quote currency whose prices and rates carry the ×100 pence scale. */
  const Gbx: string := "GBX"

  /** A buy or sell record. `month` is the month of the row's timestamp (the only part
      of it the engine reads); `shares` is the only field the engine ever changes. */
  datatype Transaction = Transaction(
    ticker: string,
    month: int,
    rate: real,
    price: real,
    shares: real,
    currency: string,
    teilfreistellung: real)

  /** What a well-formed row provides: positive rate, price and share count, a calendar
      month, and an exemption fraction from the classification table. */
  predicate Valid(tx: Transaction) {
    && tx.rate > 0.0
    && tx.price > 0.0
    && tx.shares > 0.0
    && 1 <= tx.month <= 12
    && 0.0 < tx.teilfreistellung <= 1.0
  }

  /** `Transaction.__init__`: copies the row's fields and derives the exemption
      fraction from the ticker's classification. */
  function MakeTransaction(ticker: string, month: int, rate: real, price: real, shares: real,
                           currency: string): (r: Result<Transaction>)
    ensures r.Failure? <==> ticker !in Config.TickerToTraits
    ensures r.Failure? ==> r.error == UnknownTicker(ticker)
    ensures r.Success? ==>
      && r.value.ticker == ticker && r.value.month == month && r.value.rate == rate
      && r.value.price == price && r.value.shares == shares && r.value.currency == currency
      && (r.value.teilfreistellung == 0.7 || r.value.teilfreistellung == 1.0)
    ensures r.Success? ==> Config.TeilfreistellungOf(ticker) == Success(r.value.teilfreistellung)
    ensures r.Success? && rate > 0.0 && price > 0.0 && shares > 0.0 && 1 <= month <= 12 ==>
      Valid(r.value)
  {
    match Config.TeilfreistellungOf(ticker)
    case Failure(e) => Failure(e)
    case Success(f) => Success(Transaction(ticker, month, rate, price, shares, currency, f))
  }

  /** The per-share value in home currency, computed in the order the source writes it:
      `1 / rate / 100 * price / 100` for pence quotes, `1 / rate * price` otherwise. */
  function PerShareValue(price: real, rate: real, pence: bool): (v: real)
    requires rate != 0.0
    ensures pence ==> v == price / (rate * 10000.0)
    ensures !pence ==> v * rate == price
    ensures price > 0.0 && rate > 0.0 ==> v > 0.0
  {
    if pence then 1.0 / rate / 100.0 * price / 100.0
    else 1.0 / rate * price
  }

  /** The value of one share of `tx` in home currency, by its own quote currency. */
  function HomeValue(tx: Transaction): real
    requires tx.rate != 0.0
  {
    PerShareValue(tx.price, tx.rate, tx.currency == Gbx)
  }

  /** A pence quote is worth exactly one ten-thousandth of the same figures read as a
      major-currency quote: the source divides both the price and the rate by 100. */
  lemma PenceScale(price: real, rate: real)
    requires rate != 0.0
    ensures PerShareValue(price, rate, true) * 10000.0 == PerShareValue(price, rate, false)
  {
  }

  /** The pence quote 1000 at rate 1 is worth 0.1, one hundredth of the major-currency
      quote 10 at rate 1: the ÷100 is applied twice, so these two do not coincide. */
  lemma PenceExample()
    ensures PerShareValue(1000.0, 1.0, true) == 0.1
    ensures PerShareValue(10.0, 1.0, false) == 10.0
  {
  }
}

=== FILE: valuation.dfy ===
/** `calculate_current_total_value_foreach_ticker`: the figure the year pass uses as a
    ticker's start- and end-of-year value. It adds up the per-share home value of each
    open lot and does not multiply by the lot's share count. */
module Valuation {
  import opened Transactions
  import opened Ledger

  /** The sum of the per-share home values of the lots in `q`, oldest first. */
  function QueueValue(q: Queue): real
    requires RatesNonZero(q)
  {
    if |q| == 0 then 0.0 else QueueValue(q[..|q| - 1]) + HomeValue(q[|q| - 1])
  }

  /** The inner loop of the source, proved to compute `QueueValue`. */
  method TotalValue(q: Queue) returns (total: real)
    requires RatesNonZero(q)
    ensures total == QueueValue(q)
  {
    total := 0.0;
    var i := 0;
    while i < |q|
      invariant 0 <= i <= |q|
      invariant total == QueueValue(q[..i])
    {
      assert q[..i + 1][..i] == q[..i];
      total := total + HomeValue(q[i]);
      i := i + 1;
    }
    assert q[..|q|] == q;
  }

  predicate BookRatesNonZero(b: Book) {
    forall t :: t in b ==> RatesNonZero(b[t])
  }

  /** One value per ticker of the book, and no other key. */
  function ValueForeachTicker(b: Book): (vals: map<string, real>)
    requires BookRatesNonZero(b)
    ensures vals.Keys == b.Keys
    ensures forall t :: t in b ==> vals[t] == QueueValue(b[t])
    ensures forall t :: t in b && b[t] == [] ==> vals[t] == 0.0
  {
    map t | t in b :: QueueValue(b[t])
  }

  /** Share counts play no part: two queues that differ only in their lots' share
      counts have the same value. */
  lemma {:induction false} QueueValueIgnoresShares(a: Queue, c: Queue)
    requires RatesNonZero(a)
    requires |a| == |c|
    requires forall i :: 0 <= i < |a| ==> c[i] == a[i].(shares := c[i].shares)
    ensures RatesNonZero(c)
    ensures QueueValue(a) == QueueValue(c)
  {
    if |a| > 0 {
      QueueValueIgnoresShares(a[..|a| - 1], c[..|c| - 1]);
    }
  }

  /** A queue of well-formed lots has a non-negative value, positive unless empty. */
  lemma {:induction false} QueueValuePositive(q: Queue)
    requires ValidQueue(q)
    ensures QueueValue(q) >= 0.0
    ensures |q| > 0 ==> QueueValue(q) > 0.0
  {
    if |q| > 0 {
      QueueValuePositive(q[..|q| - 1]);
    }
  }

  /** A buy adds the new lot's per-share value, whatever its share count. */
  lemma BuyAddsValue(q: Queue, tx: Transaction)
    requires RatesNonZero(q) && tx.rate != 0.0
    ensures RatesNonZero(Buy(q, tx))
    ensures QueueValue(Buy(q, tx)) == QueueValue(q) + HomeValue(tx)
  {
    assert Buy(q, tx)[..|q|] == q;
  }

  /** After a sale the queue is worth what its untouched lots were worth before: the
      partially consumed front lot keeps its per-share value. */
  lemma {:induction false} SaleValue(q: Queue, sale: Transaction)
    requires RatesNonZero(q) && sale.rate != 0.0
    requires sale.shares >= 0.0
    ensures var r := Dispose(q, sale);
      QueueValue(r.queue) == QueueValue(q[|q| - |r.queue|..])
  {
    var r := Dispose(q, sale);
    var d := |q| - |r.queue|;
    DisposeShape(q, sale);
    var rest := q[d..];
    forall i | 0 <= i < |rest|
      ensures r.queue[i] == rest[i].(shares := r.queue[i].shares)
    {
      if i > 0 {
        assert r.queue[i] == r.queue[1..][i - 1];
      }
    }
    QueueValueIgnoresShares(rest, r.queue);
  }
}

=== FILE: vorabpauschale.dfy ===
/** The year-end Vorabpauschale block of `main`: pair each ticker's start- and
    end-of-year values, compute a clamped base per open lot, and divide the ticker's
    sum by the shares it holds. */
module Vorabpauschale {
  import opened Errors
  import opened Transactions
  import opened Ledger
  import opened Valuation
  import Config

  function Min(a: real, b: real): real {
    if a <= b then a else b
  }

  /** Pairs every end-of-year ticker with its start-of-year value, 0 when the ticker had
      no start-of-year entry. Tickers only present at the start are dropped. */
  function ZipSoyEoy(soy: map<string, real>, eoy: map<string, real>): (z: map<string, (real, real)>)
    ensures z.Keys == eoy.Keys
    ensures forall t :: t in eoy ==> z[t].1 == eoy[t]
    ensures forall t :: t in eoy && t in soy ==> z[t].0 == soy[t]
    ensures forall t :: t in eoy && t !in soy ==> z[t].0 == 0.0
  {
    map t | t in eoy :: (if t in soy then soy[t] else 0.0, eoy[t])
  }

  /** The month weight of a lot: `(month - 1) / 12`. */
  function MonthWeight(month: int): real {
    (month - 1) as real / 12.0
  }

  /** The three cases in which a ticker has no base at all: it did not gain over the
      year, the base rate is not positive (for a non-negative start value), or it started
      the year at 0 (and did not end below 0). */
  predicate NoBase(soy: real, eoy: real, basiszins: real) {
    eoy <= soy || (basiszins <= 0.0 && soy >= 0.0) || (soy == 0.0 && eoy >= 0.0)
  }

  /** The base of one lot, floored at zero. It can only be positive when the lot's
      share of both caps — the base-rate yield soy·basiszins·0.7 and the year's actual
      gain — exceeds the dividend. With a non-negative dividend it vanishes in the
      `NoBase` cases and for a lot bought in January. */
  function Basisertrag(soy: real, eoy: real, basiszins: real, month: int, dividend: real): (r: real)
    ensures r >= 0.0
    ensures r > 0.0 <==> Min(soy * basiszins * 0.7, eoy - soy) * MonthWeight(month) > dividend
    ensures r > 0.0 ==> r + dividend == Min(soy * basiszins * 0.7, eoy - soy) * MonthWeight(month)
    ensures month >= 1 && r > 0.0 ==>
      && r + dividend <= soy * basiszins * 0.7 * MonthWeight(month)
      && r + dividend <= (eoy - soy) * MonthWeight(month)
    ensures dividend >= 0.0 && month >= 1 && eoy <= soy ==> r == 0.0
    ensures dividend >= 0.0 && month >= 1 && basiszins <= 0.0 && soy >= 0.0 ==> r == 0.0
    ensures dividend >= 0.0 && month >= 1 && soy == 0.0 && eoy >= 0.0 ==> r == 0.0
    ensures dividend >= 0.0 && month == 1 ==> r == 0.0
  {
    var w := MonthWeight(month);
    var cap := Min(soy * basiszins * 0.7, eoy - soy);
    var b := cap * w - dividend;
    WeightedCapFacts(soy, eoy, basiszins, month);
    if b < 0.0 then 0.0 else b
  }

  lemma MulMonotone(a: real, b: real, w: real)
    requires a <= b && w >= 0.0
    ensures a * w <= b * w
  {
  }

  /** The weighted cap is below both weighted caps and is not positive in the three
      no-base cases; a January weight zeroes it. */
  lemma WeightedCapFacts(soy: real, eoy: real, basiszins: real, month: int)
    ensures var w := MonthWeight(month);
      var cap := Min(soy * basiszins * 0.7, eoy - soy);
      && (month >= 1 ==> cap * w <= soy * basiszins * 0.7 * w && cap * w <= (eoy - soy) * w)
      && ((month >= 1 && NoBase(soy, eoy, basiszins))
          ==> cap * w <= 0.0)
      && (month == 1 ==> cap * w == 0.0)
  {
    var w := MonthWeight(month);
    var baseYield := soy * basiszins * 0.7;
    var cap := Min(baseYield, eoy - soy);
    if month >= 1 {
      assert w >= 0.0;
      MulMonotone(cap, baseYield, w);
      MulMonotone(cap, eoy - soy, w);
      if basiszins <= 0.0 && soy >= 0.0 {
        MulMonotone(basiszins, 0.0, soy);
        assert baseYield <= 0.0;
      }
      if soy == 0.0 {
        assert baseYield == 0.0;
      }
      if NoBase(soy, eoy, basiszins) {
        assert cap <= 0.0;
        MulMonotone(cap, 0.0, w);
      }
    }
    if month == 1 {
      assert w == 0.0;
    }
  }

  /** A lot bought in July of a ticker that rose from 100 to 110 at base rate 0.88: the
      actual gain 10 is the smaller cap, and half of it counts. */
  lemma BasisertragExample()
    ensures Basisertrag(100.0, 110.0, 0.88, 7, 0.0) == 5.0
    ensures Basisertrag(100.0, 110.0, 0.88, 7, 2.0) == 3.0
    ensures Basisertrag(100.0, 110.0, 0.88, 7, 6.0) == 0.0
  {
  }

  /** The zero cases of `Basisertrag` need their side conditions: a negative dividend
      gives a January lot a base, and a negative start value with a negative base rate
      gives a positive rate cap. */
  lemma BasisertragZeroNeedsConditions()
    ensures Basisertrag(100.0, 110.0, 0.88, 1, -1.0) == 1.0
    ensures Basisertrag(-100.0, 10.0, -0.45, 7, 0.0) == 15.75
  {
  }

  /** The sum of the lot bases of `lots`, lot `i` offset by `dividends[i]`. */
  function SumBasisertrag(soy: real, eoy: real, basiszins: real, lots: Queue, dividends: seq<real>): real
    requires |dividends| == |lots|
  {
    if |lots| == 0 then 0.0
    else
      var n := |lots| - 1;
      SumBasisertrag(soy, eoy, basiszins, lots[..n], dividends[..n])
        + Basisertrag(soy, eoy, basiszins, lots[n].month, dividends[n])
  }

  lemma {:induction false} SumBasisertragNonNegative(soy: real, eoy: real, basiszins: real,
                                                     lots: Queue, dividends: seq<real>)
    requires |dividends| == |lots|
    ensures SumBasisertrag(soy, eoy, basiszins, lots, dividends) >= 0.0
  {
    if |lots| > 0 {
      var n := |lots| - 1;
      SumBasisertragNonNegative(soy, eoy, basiszins, lots[..n], dividends[..n]);
    }
  }

  /** With non-negative dividends no lot contributes in the `NoBase` cases. */
  lemma {:induction false} SumBasisertragZero(soy: real, eoy: real, basiszins: real,
                                              lots: Queue, dividends: seq<real>)
    requires |dividends| == |lots|
    requires ValidQueue(lots)
    requires forall i :: 0 <= i < |dividends| ==> dividends[i] >= 0.0
    requires NoBase(soy, eoy, basiszins)
    ensures SumBasisertrag(soy, eoy, basiszins, lots, dividends) == 0.0
  {
    if |lots| > 0 {
      var n := |lots| - 1;
      SumBasisertragZero(soy, eoy, basiszins, lots[..n], dividends[..n]);
    }
  }

  /** `vorabpauschalen / shares` for one ticker; dividing by a zero share total fails. */
  function PerShare(soy: real, eoy: real, basiszins: real, lots: Queue, dividends: seq<real>): (r: Result<real>)
    requires |dividends| == |lots|
    ensures r.Failure? <==> TotalShares(lots) == 0.0
    ensures r.Failure? ==> r.error == NoSharesHeld
    ensures r.Success? ==>
      r.value * TotalShares(lots) == SumBasisertrag(soy, eoy, basiszins, lots, dividends)
    ensures r.Success? && TotalShares(lots) > 0.0 ==> r.value >= 0.0
  {
    var shares := TotalShares(lots);
    if shares == 0.0 then Failure(NoSharesHeld)
    else
      SumBasisertragNonNegative(soy, eoy, basiszins, lots, dividends);
      Success(SumBasisertrag(soy, eoy, basiszins, lots, dividends) / shares)
  }

  /** One more lot extends the sum by that lot's base. */
  lemma SumBasisertragStep(soy: real, eoy: real, basiszins: real, lots: Queue, dividends: seq<real>, i: int)
    requires |dividends| == |lots| && 0 <= i < |lots|
    ensures SumBasisertrag(soy, eoy, basiszins, lots[..i + 1], dividends[..i + 1])
      == SumBasisertrag(soy, eoy, basiszins, lots[..i], dividends[..i])
         + Basisertrag(soy, eoy, basiszins, lots[i].month, dividends[i])
  {
    assert lots[..i + 1][..i] == lots[..i];
    assert dividends[..i + 1][..i] == dividends[..i];
  }

  /** The per-ticker loop of the source, proved to compute `PerShare`. */
  method YearlyPerShare(soy: real, eoy: real, basiszins: real, lots: Queue, dividends: seq<real>)
    returns (r: Result<real>)
    requires |dividends| == |lots|
    ensures r == PerShare(soy, eoy, basiszins, lots, dividends)
  {
    var vorabpauschalen := 0.0;
    var shares := 0.0;
    var i := 0;
    while i < |lots|
      invariant 0 <= i <= |lots|
      invariant vorabpauschalen == SumBasisertrag(soy, eoy, basiszins, lots[..i], dividends[..i])
      invariant shares == TotalShares(lots[..i])
    {
      SumBasisertragStep(soy, eoy, basiszins, lots, dividends, i);
      assert lots[..i + 1] == lots[..i] + [lots[i]];
      TotalSharesAppend(lots[..i], lots[i]);
      var basisertrag := Basisertrag(soy, eoy, basiszins, lots[i].month, dividends[i]);
      vorabpauschalen := vorabpauschalen + basisertrag;
      shares := shares + lots[i].shares;
      i := i + 1;
    }
    assert lots[..|lots|] == lots;
    assert dividends[..|dividends|] == dividends;
    if shares == 0.0 {
      r := Failure(NoSharesHeld);
    } else {
      r := Success(vorabpauschalen / shares);
    }
  }

  predicate DividendsFit(b: Book, dividends: map<string, seq<real>>) {
    forall t :: t in b ==> t in dividends && |dividends[t]| == |b[t]|
  }

  /** One ticker's figure for tax year `year`. `basiszins[year]` is only read inside the
      per-lot loop, so an unknown year fails only for a ticker that holds lots; a ticker
      without lots fails at the division instead. */
  function PerShareInYear(year: string, soy: real, eoy: real, lots: Queue, dividends: seq<real>)
    : (r: Result<real>)
    requires |dividends| == |lots|
    ensures lots == [] ==> r == Failure(NoSharesHeld)
    ensures lots != [] && year !in Config.BasiszinsTable ==> r == Failure(UnknownYear(year))
    ensures year in Config.BasiszinsTable ==>
      r == PerShare(soy, eoy, Config.BasiszinsTable[year], lots, dividends)
  {
    match Config.BasiszinsFor(year)
    case Success(bz) => PerShare(soy, eoy, bz, lots, dividends)
    case Failure(e) => if lots == [] then Failure(NoSharesHeld) else Failure(e)
  }

  /** The whole block: one per-share figure (or failure) per ticker of the year-end book,
      with the year-end value taken from that book and the start value from `soyValues`.
      The source raises at the first failing ticker and abandons the year, so a single
      `Failure` anywhere in the map stands for the program aborting, not for a ticker
      being skipped. */
  function VorabpauschaleForeachTicker(soyValues: map<string, real>, b: Book, year: string,
                                       dividends: map<string, seq<real>>): (r: map<string, Result<real>>)
    requires BookRatesNonZero(b)
    requires DividendsFit(b, dividends)
    ensures r.Keys == b.Keys
    ensures forall t :: t in b ==>
      r[t] == PerShareInYear(year, if t in soyValues then soyValues[t] else 0.0, QueueValue(b[t]),
                             b[t], dividends[t])
  {
    var eoy := ValueForeachTicker(b);
    var z := ZipSoyEoy(soyValues, eoy);
    map t | t in b :: PerShareInYear(year, z[t].0, z[t].1, b[t], dividends[t])
  }

  /** For well-formed lots and non-negative dividends, the per-share figure fails exactly
      when there are no lots, is never negative, and is exactly 0 when the ticker did not
      gain, when the base rate is not positive, or when it started the year at 0. */
  lemma PerShareSound(soy: real, eoy: real, basiszins: real, lots: Queue, dividends: seq<real>)
    requires |dividends| == |lots|
    requires ValidQueue(lots)
    requires forall i :: 0 <= i < |dividends| ==> dividends[i] >= 0.0
    ensures PerShare(soy, eoy, basiszins, lots, dividends).Failure? <==> lots == []
    ensures PerShare(soy, eoy, basiszins, lots, dividends).Success? ==>
      PerShare(soy, eoy, basiszins, lots, dividends).value >= 0.0
    ensures NoBase(soy, eoy, basiszins) ==>
      PerShare(soy, eoy, basiszins, lots, dividends).Success? ==>
        PerShare(soy, eoy, basiszins, lots, dividends).value == 0.0
  {
    TotalSharesPositive(lots);
    if NoBase(soy, eoy, basiszins) {
      SumBasisertragZero(soy, eoy, basiszins, lots, dividends);
    }
  }

  /** For a well-formed book and non-negative dividends, a ticker's figure fails exactly
      when it holds no lots, and is never negative otherwise. A ticker first held this
      year, any ticker whose value did not rise, and any ticker in 2021 (negative base
      rate) owes exactly 0. */
  lemma VorabpauschaleForeachTickerSound(soyValues: map<string, real>, b: Book, year: string,
                                         dividends: map<string, seq<real>>, t: string)
    requires year in Config.BasiszinsTable
    requires ValidBook(b)
    requires DividendsFit(b, dividends)
    requires t in b
    requires forall i :: 0 <= i < |dividends[t]| ==> dividends[t][i] >= 0.0
    ensures BookRatesNonZero(b)
    ensures var r := VorabpauschaleForeachTicker(soyValues, b, year, dividends);
      && (r[t].Failure? <==> b[t] == [])
      && (r[t].Success? ==> r[t].value >= 0.0)
      && (t !in soyValues && r[t].Success? ==> r[t].value == 0.0)
      && (t in soyValues && QueueValue(b[t]) <= soyValues[t] && r[t].Success? ==> r[t].value == 0.0)
      && (year == "2021" && (t in soyValues ==> soyValues[t] >= 0.0) && r[t].Success? ==>
            r[t].value == 0.0)
  {
    assert BookRatesNonZero(b);
    var r := VorabpauschaleForeachTicker(soyValues, b, year, dividends);
    var soy := if t in soyValues then soyValues[t] else 0.0;
    var eoy := QueueValue(b[t]);
    var basiszins := Config.BasiszinsTable[year];
    assert r[t] == PerShare(soy, eoy, basiszins, b[t], dividends[t]);
    QueueValuePositive(b[t]);
    PerShareSound(soy, eoy, basiszins, b[t], dividends[t]);
  }
}

=== FILE: yearpass.dfy ===
/** The row loop of `main`: every ledger row looks up its ticker's queue (an empty one
    if the ticker has none yet), applies a buy or a sale to it, and stores it back. */
module YearPass {
  import opened Transactions
  import opened Pnl
  import opened Ledger

  /** A ledger row. Dividend, deposit and any other action only take part in the lookup
      and the write-back of the ticker's queue. */
  datatype Row =
    | MarketBuy(tx: Transaction)
    | MarketSell(tx: Transaction)
    | OtherAction(ticker: string)

  function RowTicker(row: Row): string {
    match row
    case MarketBuy(tx) => tx.ticker
    case MarketSell(tx) => tx.ticker
    case OtherAction(t) => t
  }

  predicate ValidRow(row: Row) {
    (row.MarketBuy? || row.MarketSell?) ==> Valid(row.tx)
  }

  predicate ValidRows(rows: seq<Row>) {
    forall i :: 0 <= i < |rows| ==> ValidRow(rows[i])
  }

  /** `ticker_to_deque.get(ticker, deque())`. */
  function QueueOf(b: Book, t: string): Queue {
    if t in b then b[t] else []
  }

  /** The open position of ticker `t`. */
  function Position(b: Book, t: string): real {
    TotalShares(QueueOf(b, t))
  }

  /** The gains of one sale, each tagged with the sale's exemption fraction. */
  function Events(pnls: seq<real>, teilfreistellung: real): (es: seq<TaxableEvent>)
    ensures |es| == |pnls|
    ensures forall i :: 0 <= i < |es| ==> es[i].pnl == pnls[i]
    ensures forall i :: 0 <= i < |es| ==> es[i].teilfreistellung == teilfreistellung
  {
    seq(|pnls|, i requires 0 <= i < |pnls| => TaxableEvent(pnls[i], teilfreistellung))
  }

  datatype StepOutcome = StepOutcome(book: Book, events: seq<TaxableEvent>)

  /** One pass of the row loop. */
  function Step(b: Book, row: Row): (r: StepOutcome)
    requires ValidBook(b) && ValidRow(row)
    ensures r.book.Keys == b.Keys + {RowTicker(row)}
    ensures forall t :: t in b && t != RowTicker(row) ==> r.book[t] == b[t]
    ensures ValidBook(r.book)
    ensures row.MarketBuy? ==>
      && |r.book[RowTicker(row)]| == |QueueOf(b, RowTicker(row))| + 1
      && r.book[RowTicker(row)][|QueueOf(b, RowTicker(row))|] == row.tx
      && r.book[RowTicker(row)][..|QueueOf(b, RowTicker(row))|] == QueueOf(b, RowTicker(row))
      && Position(r.book, RowTicker(row)) == Position(b, RowTicker(row)) + row.tx.shares
      && r.events == []
    ensures row.MarketSell? && row.tx.shares <= Position(b, RowTicker(row)) ==>
      Position(r.book, RowTicker(row)) == Position(b, RowTicker(row)) - row.tx.shares
    ensures row.MarketSell? && row.tx.shares > Position(b, RowTicker(row)) ==>
      r.book[RowTicker(row)] == []
    ensures row.MarketSell? ==>
      && r.book[RowTicker(row)] == Dispose(QueueOf(b, RowTicker(row)), row.tx).queue
      && |r.events| == |Dispose(QueueOf(b, RowTicker(row)), row.tx).pnls|
      && (forall i :: 0 <= i < |r.events| ==>
            && r.events[i].pnl == Dispose(QueueOf(b, RowTicker(row)), row.tx).pnls[i]
            && r.events[i].teilfreistellung == row.tx.teilfreistellung)
    ensures row.OtherAction? ==> r.book[RowTicker(row)] == QueueOf(b, RowTicker(row)) && r.events == []
  {
    var t := RowTicker(row);
    var dq := QueueOf(b, t);
    match row
    case MarketBuy(tx) =>
      var q' := Buy(dq, tx);
      assert ValidQueue(q');
      StoreQueue(b, t, q');
      StepOutcome(b[t := q'], [])
    case MarketSell(tx) =>
      var d := Dispose(dq, tx);
      DisposeKeepsValid(dq, tx);
      StoreQueue(b, t, d.queue);
      StepOutcome(b[t := d.queue], Events(d.pnls, tx.teilfreistellung))
    case OtherAction(_) =>
      StoreQueue(b, t, dq);
      StepOutcome(b[t := dq], [])
  }

  /** Writing a well-formed queue back under `t` keeps the book well formed and leaves
      every other ticker's queue alone. */
  lemma StoreQueue(b: Book, t: string, q: Queue)
    requires ValidBook(b) && ValidQueue(q)
    ensures ValidBook(b[t := q])
    ensures b[t := q].Keys == b.Keys + {t}
    ensures forall u :: u in b && u != t ==> b[t := q][u] == b[u]
  {
  }

  datatype YearOutcome = YearOutcome(book: Book, events: seq<TaxableEvent>)

  function Tickers(rows: seq<Row>): set<string> {
    set i | 0 <= i < |rows| :: RowTicker(rows[i])
  }

  /** All rows of the year, in ledger order. */
  function ProcessYear(b: Book, rows: seq<Row>): (r: YearOutcome)
    requires ValidBook(b) && ValidRows(rows)
    ensures ValidBook(r.book)
    ensures r.book.Keys == b.Keys + Tickers(rows)
    ensures forall t :: t in b && t !in Tickers(rows) ==> r.book[t] == b[t]
    decreases |rows|
  {
    if |rows| == 0 then YearOutcome(b, [])
    else
      var s := Step(b, rows[0]);
      var rest := ProcessYear(s.book, rows[1..]);
      TickersCons(rows);
      YearOutcome(rest.book, s.events + rest.events)
  }

  lemma TickersCons(rows: seq<Row>)
    requires |rows| > 0
    ensures Tickers(rows) == {RowTicker(rows[0])} + Tickers(rows[1..])
  {
    forall t | t in Tickers(rows) ensures t in {RowTicker(rows[0])} + Tickers(rows[1..]) {
      var i :| 0 <= i < |rows| && RowTicker(rows[i]) == t;
      if i > 0 { assert RowTicker(rows[1..][i - 1]) == t; }
    }
    forall t | t in Tickers(rows[1..]) ensures t in Tickers(rows) {
      var i :| 0 <= i < |rows| - 1 && RowTicker(rows[1..][i]) == t;
      assert RowTicker(rows[i + 1]) == t;
    }
  }

  lemma ConcatAssoc<T>(a: seq<T>, b: seq<T>, c: seq<T>)
    ensures a + (b + c) == (a + b) + c
  {
  }

  lemma ValidRowsAppend(rows: seq<Row>, row: Row)
    requires ValidRows(rows) && ValidRow(row)
    ensures ValidRows(rows + [row])
  {
    forall i | 0 <= i < |rows| + 1 ensures ValidRow((rows + [row])[i]) {
      if i < |rows| { assert (rows + [row])[i] == rows[i]; }
    }
  }

  /** Processing one more row extends the year by one `Step`: its queue change applies to
      the book the earlier rows left, and its gains follow theirs in ledger order. */
  lemma {:induction false} ProcessYearAppend(b: Book, rows: seq<Row>, row: Row)
    requires ValidBook(b) && ValidRows(rows) && ValidRow(row)
    ensures var y := ProcessYear(b, rows);
      var s := Step(y.book, row);
      ProcessYear(b, rows + [row]) == YearOutcome(s.book, y.events + s.events)
    decreases |rows|
  {
    var all := rows + [row];
    ValidRowsAppend(rows, row);
    if |rows| == 0 {
      assert all == [row];
      assert all[1..] == [];
      var s := Step(b, row);
      assert ProcessYear(b, all) == YearOutcome(ProcessYear(s.book, []).book, s.events + ProcessYear(s.book, []).events);
      assert ProcessYear(b, rows) == YearOutcome(b, []);
    } else {
      var s0 := Step(b, rows[0]);
      assert all[0] == rows[0];
      assert all[1..] == rows[1..] + [row];
      ProcessYearAppend(s0.book, rows[1..], row);
      var rest := ProcessYear(s0.book, rows[1..]);
      var s := Step(rest.book, row);
      assert ProcessYear(b, rows) == YearOutcome(rest.book, s0.events + rest.events);
      assert ProcessYear(b, all) == YearOutcome(s.book, s0.events + (rest.events + s.events));
      ConcatAssoc(s0.events, rest.events, s.events);
    }
  }

  /** Shares bought minus shares sold of ticker `t` over `rows`. */
  function NetFlow(rows: seq<Row>, t: string): real {
    if |rows| == 0 then 0.0
    else
      var here :=
        match rows[0]
        case MarketBuy(tx) => if tx.ticker == t then tx.shares else 0.0
        case MarketSell(tx) => if tx.ticker == t then -tx.shares else 0.0
        case OtherAction(_) => 0.0;
      here + NetFlow(rows[1..], t)
  }

  /** No sale in `rows` asks for more shares than its ticker holds at that point. */
  predicate NoOversell(b: Book, rows: seq<Row>)
    requires ValidBook(b) && ValidRows(rows)
    decreases |rows|
  {
    |rows| == 0 ||
    ((rows[0].MarketSell? ==> rows[0].tx.shares <= Position(b, rows[0].tx.ticker))
     && NoOversell(Step(b, rows[0]).book, rows[1..]))
  }

  /** Without an oversell, each ticker's year-end position is its carried-in position
      plus what the year's rows bought minus what they sold. */
  lemma {:induction false} ProcessYearPositions(b: Book, rows: seq<Row>, t: string)
    requires ValidBook(b) && ValidRows(rows)
    requires NoOversell(b, rows)
    ensures Position(ProcessYear(b, rows).book, t) == Position(b, t) + NetFlow(rows, t)
    decreases |rows|
  {
    if |rows| > 0 {
      var s := Step(b, rows[0]);
      ProcessYearPositions(s.book, rows[1..], t);
      var u := RowTicker(rows[0]);
      if u != t {
        assert QueueOf(s.book, t) == QueueOf(b, t);
      }
    }
  }

  /** A year with no rows hands the carried-in book back unchanged and realizes nothing. */
  lemma EmptyYear(b: Book)
    requires ValidBook(b)
    ensures ProcessYear(b, []) == YearOutcome(b, [])
  {
  }
}
